=== FILE: README.md ===
# Newman results summary: statistics and status thresholds

A Dafny model of the logic in `script/generate-summary.js`, the
post-processing step of a Newman (Postman CLI) API test pipeline. The script
reads two Newman JSON result files (a performance run and a load-test run),
reduces each to a metrics record (`analyzeResults`), and renders an HTML
dashboard and a Markdown summary in which each metric gets a
good / warning / bad mark from fixed thresholds.

The model has seven modules:

- `Optional` (`optional.dfy`): `Option`, standing for the script's `null` and missing fields.
- `Stats` (`stats.dfy`): sum, `Math.min`, `Math.max`, the numeric ascending sort and the
  floor-index nearest-rank percentile. Proved: the sort returns the unique ascending
  permutation of its input; min and max are the ends of the sorted sequence; the
  percentile index is always in bounds; the percentile is the one value of nearest
  rank `floor(n * p / 100)`, counted on the unsorted values; and p95 <= p99.
- `Rounding` (`rounding.dfy`): `toFixed(2)` read back as a number, on exact reals.
  It is monotone, within 0.005 of its argument, and keeps whole numbers unchanged.
- `Analysis` (`analysis.dfy`): the parsed document, the response-time collection
  (with its truthy test, so a 0 ms time is dropped), the success rate, the
  average, and `analyzeResults` itself. Its contract gives the all-zero case; the success
  rate and the average within 0.005 of their exact values; p95 and p99 as the collected
  values of nearest rank; min <= p95 <= p99 <= max; min <= avg <= max; and the success
  rate in [0, 100] when failures do not exceed requests.
- `Thresholds` (`thresholds.dfy`): the status classifiers with their exact bands, and
  that each one is monotone.
- `Report` (`report.dfy`): the rendering decisions without the markup. These are which sections
  appear, which metric rows and cards each section holds, and which classifier
  judges which row. It also holds lemmas that link the analysis to the marks. A run with at
  least one request, no failures and no response over 1000 ms is all Good. A single response over 10000 ms makes
  the load table's max row Bad. A run with zero requests has a Bad success rate.
- `Examples` (`examples.dfy`): concrete runs worked through the model.

Three behaviours of the script carry over unchanged:

- With zero requests the success rate is `NaN`, or `-Infinity` when failures are
  reported. Either is modelled as `None`, and both artifacts mark it Bad, because
  `NaN >= 95`, `NaN >= 80`, `-Infinity >= 95` and `-Infinity >= 80` are all false.
- The percentile index is not clamped. `PercentileIndex` proves that
  `floor(n * p / 100) < n` for every `n >= 1` and `p < 100`, so no clamp is needed.
- A response time of 0 is dropped along with missing ones, because of the truthy test.

## Model

| member | source | states |
|---|---|---|
| `Analysis.ResponseTimes` | script/generate-summary.js:19-24 | the collected times number at most the executions, and every one is non-zero |
| `Analysis.ResponseTimesMembers` | script/generate-summary.js:19-24 | a value is collected if and only if some execution has a present response with that truthy response time |
| `Analysis.ResponseTimesAppend` | script/generate-summary.js:20-24 | collection distributes over concatenation of executions, so execution order is kept |
| `Analysis.ResponseTimesAllPresent` | script/generate-summary.js:21-22 | when every execution has a truthy time, each contributes exactly its own time, position for position |
| `Analysis.ResponseTimesKeep` | script/generate-summary.js:21-22 | an execution with a truthy time contributes that time in front of what the later executions contribute |
| `Analysis.ResponseTimesSkip` | script/generate-summary.js:21 | an execution without a truthy time contributes nothing |
| `Analysis.CollectResponseTimes` | script/generate-summary.js:19-24 | the `forEach`/`push` loop builds exactly the collected sequence |
| `Analysis.PassingShare` | script/generate-summary.js:16 | (total - failed) / total lies in [0, 1] when failed <= total, and is 1 if and only if nothing failed |
| `Analysis.ExactSuccessRate` | script/generate-summary.js:14-16 | for failed <= total the unrounded rate lies in [0, 100], and it is 100 if and only if no request failed |
| `Analysis.SuccessRate` | script/generate-summary.js:14-16 | the rate is non-finite exactly when total is 0; otherwise it has at most two decimals and lies within 0.005 of the exact rate; with failed <= total it lies in [0, 100]; with no failures it is exactly 100 |
| `Analysis.AverageResponseTime` | script/generate-summary.js:26-27 | 0 with no times; otherwise it has at most two decimals, lies within 0.005 of sum / n, and lies between the minimum and the maximum |
| `Analysis.MeanBetween` | script/generate-summary.js:26-27 | n*lo <= sum <= n*hi puts sum/n in [lo, hi] |
| `Analysis.PercentilesOfTimes` | script/generate-summary.js:29-37 | for a non-empty collection, p95 and p99 read from the sorted times are collected values of nearest rank among the unsorted times, and min <= p95 <= p99 <= max |
| `Analysis.AnalyzeDocument` | script/generate-summary.js:13-49 | copies the counts and the elapsed time; the success rate is exactly `SuccessRate(total, failed)` and the average exactly `AverageResponseTime` of the collected times, so both are the values of their `toFixed(2)` strings; the success rate is within 0.005 of the exact rate and in [0, 100] when failed <= total; all latency metrics are 0 with no times; otherwise min and max are collected values bounding every time, avg is within 0.005 of the mean and between min and max, p95 and p99 are collected values of nearest rank floor(n*95/100) and floor(n*99/100) among the collected times, and min <= p95 <= p99 <= max |
| `Analysis.AnalyzeResults` | script/generate-summary.js:5-11 | a missing file gives no metrics and an existing one always gives metrics |
| `Stats.Min` | script/generate-summary.js:29 | the minimum is one of the values and no value is below it |
| `Stats.Max` | script/generate-summary.js:30 | the maximum is one of the values and no value is above it |
| `Stats.Insert` | script/generate-summary.js:33 | inserting into an ascending sequence keeps it ascending and adds exactly one occurrence of the value |
| `Stats.SortAscending` | script/generate-summary.js:33 | the sorted result is ascending and a permutation of the input |
| `Stats.SortedPermutationUnique` | script/generate-summary.js:33 | two ascending permutations of the same values are equal, so any correct sort gives the same percentiles |
| `Stats.SortSortedIsIdentity` | script/generate-summary.js:33 | sorting an ascending sequence returns it unchanged |
| `Stats.SortedMinMax` | script/generate-summary.js:29-30 | on an ascending sequence the minimum is the first value and the maximum the last |
| `Stats.MinMaxAreSortedEnds` | script/generate-summary.js:29-33 | min equals the first sorted value and max the last |
| `Stats.SumBounds` | script/generate-summary.js:26-27 | values in [lo, hi] give a sum in [n*lo, n*hi] |
| `Stats.PercentileIndex` | script/generate-summary.js:34-37 | the floor index is below n whenever n >= 1, so the read is in bounds without clamping |
| `Stats.PercentileIndexMonotone` | script/generate-summary.js:34-37 | a higher percentile never picks an earlier index |
| `Stats.CountsRespectMultiset` | script/generate-summary.js:33-37 | how many values lie below, or at most, a given value does not depend on their order, so sorting keeps every rank |
| `Stats.SortedRank` | script/generate-summary.js:35 | in an ascending sequence the value at index i has rank i |
| `Stats.RankUnique` | script/generate-summary.js:35 | in an ascending sequence only the value at index i has rank i, so the rank determines the percentile |
| `Stats.Percentile` | script/generate-summary.js:34-37 | 0 for no values; otherwise one of the values; on an ascending sequence it lies between the first and last values and has rank floor(n*p/100) (fewer values below it than that index + 1, more at or below it than the index) |
| `Stats.PercentileMonotone` | script/generate-summary.js:34-37 | on an ascending sequence p95 <= p99 |
| `Stats.PercentileOfSorted` | script/generate-summary.js:33-37 | the percentile of the sorted values is one of the original values and has rank floor(n*p/100) among them |
| `Rounding.HalfUp` | script/generate-summary.js:16 | the rounded value is non-negative, has at most two decimals and lies within half a hundredth of the argument |
| `Rounding.Fixed2` | script/generate-summary.js:16 | `toFixed(2)` has at most two decimals, lies within 0.005 of its argument and keeps non-negative values non-negative |
| `Rounding.Fixed2Monotone` | script/generate-summary.js:16 | rounding preserves order |
| `Rounding.Fixed2OfInteger` | script/generate-summary.js:27 | whole numbers are unchanged by rounding |
| `Rounding.Fixed2Between` | script/generate-summary.js:26-27 | a value between two whole numbers stays between them after rounding |
| `Thresholds.SuccessRateStatus` | script/generate-summary.js:152 | Good exactly for rates >= 95, Warning exactly for [80, 95), Bad for lower or non-finite rates |
| `Thresholds.SuccessRateStatusMonotone` | script/generate-summary.js:88 | a higher success rate never gets a worse status |
| `Thresholds.LatencyStatus` | script/generate-summary.js:153-154 | Good up to the first limit, Warning up to the second, Bad above it, each band both ways |
| `Thresholds.LatencyStatusMonotone` | script/generate-summary.js:153-154 | a larger latency never gets a better status |
| `Thresholds.AvgStatus` | script/generate-summary.js:153 | average: Good up to 1000 ms, Warning up to 3000 ms, Bad above |
| `Thresholds.P95Status` | script/generate-summary.js:154 | 95th percentile: Good up to 2000 ms, Warning up to 5000 ms, Bad above |
| `Thresholds.MaxStatus` | script/generate-summary.js:165 | maximum: Good up to 5000 ms, Warning up to 10000 ms, Bad above |
| `Thresholds.FailedStatus` | script/generate-summary.js:156 | Good exactly when no request failed, otherwise Bad, never Warning |
| `Thresholds.FailedStatusMonotone` | script/generate-summary.js:156 | more failures never get a better status |
| `Report.Judge` | script/generate-summary.js:150-156 | only total requests gets the information mark; the failed-requests row is Good exactly when there are no failures |
| `Report.Summary` | script/generate-summary.js:147-167 | a section is the placeholder exactly when its data is missing; otherwise it has the section's rows in order, each judged by its metric's classifier |
| `Report.Dashboard` | script/generate-summary.js:85-127 | a grid exists exactly when its data exists; it has the section's cards in order, and only the success-rate card has a status class |
| `Report.Render` | script/generate-summary.js:182-183 | the summary holds the performance then the load section, each exactly that section of its record; the dashboard has one grid per present record, the performance grid first and the load grid last |
| `Report.GenerateSummary` | script/generate-summary.js:179-183 | a missing results file yields its placeholder; two missing files yield an empty dashboard |
| `Report.MaxBoundsEveryExecution` | script/generate-summary.js:30 | every truthy response time is at most the reported maximum |
| `Report.AllGoodWhenWithinLimits` | script/generate-summary.js:150-166 | a 100 % rate, no failures and latencies within 1000 ms make every judged row Good |
| `Report.HealthyRunAllGood` | script/generate-summary.js:150-166 | a run with requests, no failures and no response over 1000 ms is Good on every judged row of both tables |
| `Report.SlowResponseFlagged` | script/generate-summary.js:165 | one response over 10000 ms makes the load table's max row Bad |
| `Report.PerformanceTable` | script/generate-summary.js:152-156 | the performance table's rows in order: success rate by its 95/80 bands, average by 1000/3000 ms, p95 by 2000/5000 ms, total with the information mark, failed requests by the zero test |
| `Report.LoadTable` | script/generate-summary.js:163-166 | the load table's rows in order: success rate by its 95/80 bands, average by 1000/3000 ms, maximum by 5000/10000 ms, total with the information mark |
| `Report.DashboardGrids` | script/generate-summary.js:87-125 | each grid's four cards in order, only the success-rate card classed, by the success-rate bands |
| `Report.LoadMaxRow` | script/generate-summary.js:165 | the third load-table row is the maximum response time, judged by its thresholds |
| `Report.NoRequestsRateBad` | script/generate-summary.js:88 | with zero requests the success rate is marked Bad in the summary and in the dashboard card |
| `Report.DashboardAgreesWithSummary` | script/generate-summary.js:110 | the dashboard's success-rate class equals the summary's success-rate mark |
| `Examples.TenRequestsOneFailure` | script/generate-summary.js:16 | 10 requests with 1 failure give a success rate of 90.00 |
| `Examples.RoundedRateHidesOneFailure` | script/generate-summary.js:16 | 1 failure in 100000 requests rounds to a rate of 100.00 |
| `Examples.DecimalTieRoundsUp` | script/generate-summary.js:16 | 1001 failures in 20000 requests, an exact 94.995, round to 95.00 in the model |
| `Examples.FiveResponseTimes` | script/generate-summary.js:13-49 | times 100..500 with a missing response and a 0 ms time give avg 300, min 100, max 500, p95 = p99 = 500 |
| `Examples.FiveTimesCollected` | script/generate-summary.js:19-24 | the missing response and the 0 ms time are skipped, order kept |
| `Examples.SkipsMissingAndZero` | script/generate-summary.js:19-24 | for any five positive times around a missing response and a 0 ms time, exactly the five are collected, in order |
| `Examples.FiveValuesPercentiles` | script/generate-summary.js:33-37 | with five ascending values both percentiles read the largest |
| `Examples.FiveTimesAverage` | script/generate-summary.js:26-30 | 100..500 have min 100, max 500 and average 300.00 |
| `Examples.OneToHundredPercentiles` | script/generate-summary.js:33-37 | for 1..100 the 95th percentile is 96 and the 99th is 100 |
| `Examples.NoResponseTimes` | script/generate-summary.js:26-37 | with no truthy response time every latency metric is 0 |

## Left out

- Reading the files (`fs.existsSync`, `readFileSync`, `JSON.parse`) is left out. A missing file is the `None` argument of `AnalyzeResults`. A malformed document, which makes the script throw and exit 1, has no counterpart: the model starts from an already parsed `Document`.
- Writing `reports/index.html` and `reports/summary.md` is left out, as is the HTML, CSS and Markdown text. Only the structure is kept: sections, rows, cards and marks.
- The metric values printed in the cells and the fixed report links are left out. They are text with no logic.
- The dashboard timestamp (`new Date().toISOString()`) is left out. It is a clock read.
- The `console.log` lines, the top-level `try`/`catch` and `process.exit(1)` are left out. They are process plumbing.
- Stats.PercentileIndex: computes `n * p / 100` exactly. The script multiplies by the doubles `0.95` and `0.99` before `Math.floor`. IEEE-754 rounding of that product is not modelled.
- Rounding.Fixed2: rounds the exact real value. `toFixed(2)` rounds the nearest double, so a decimal tie such as 1.005, which is stored below the tie, is not modelled. This can change a mark: 1001 failures in 20000 requests give exactly 94.995, which the model rounds to 95.00 (Good, `Examples.DecimalTieRoundsUp`), while the double computed for it lies just below 94.995, so `toFixed(2)` gives 94.99 (Warning). The average's mark can change the same way: 200 response times summing to 200001 have the exact mean 1000.005, which the model rounds to 1000.01 (Warning), while the double is 1000.00499…, so `toFixed(2)` gives 1000.00 (Good).
- Examples.DecimalTieRoundsUp: states the model's 95.00 for 1001 failures in 20000 requests. The script computes a double just below 94.995 here, so `toFixed(2)` gives 94.99 and the success rate is marked Warning rather than Good; the example shows where the exact-real rounding of `Rounding.Fixed2` departs from the script.
- Response times and request counts are whole non-negative numbers. Fractional, negative or `NaN` response times are not modelled.
- Stats.Sum: adds exactly. The script adds doubles, which stop holding every integer once the sum passes 2^53 ms; that loss is not modelled.
- Stats.Min: models `Math.min(...times)` as a total function. The engine's limit on spread arguments, which throws for very large arrays, is not modelled.
- Stats.Max: the same spread-argument limit of `Math.max(...times)` is not modelled.
- The elapsed time `totalTime` is an unbounded integer. The model does not check that `completed >= started`, and neither does the script.

=== FILE: analysis.dfy ===
/** `analyzeResults` of `script/generate-summary.js`: from one parsed Newman
    results document to the metrics record the dashboard and the Markdown
    summary are rendered from. */
module Analysis {
  import opened Optional
  import opened Stats
  import opened Rounding

  /** `execution.response`; its `responseTime` may be missing. */
  datatype Response = Response(responseTime: Option<nat>)

  /** One entry of `run.executions`; `response` is missing when the request
      never got an answer. */
  datatype Execution = Execution(response: Option<Response>)

  /** The parts of a Newman results document the script reads:
      `run.stats.requests.{total,failed}`, `run.executions` and
      `run.timings.{started,completed}` (epoch milliseconds). */
  datatype Document = Document(
    total: nat,
    failed: nat,
    executions: seq<Execution>,
    started: int,
    completed: int
  )

  /** The object `analyzeResults` returns. `successRate` is `None` when the
      division by a zero total yields a non-finite number (`NaN`, or
      `-Infinity` if failures are reported without requests). The success
      rate and the average hold the value of their `toFixed(2)` string. */
  datatype Metrics = Metrics(
    totalRequests: nat,
    failedRequests: nat,
    successRate: Option<real>,
    avgResponseTime: real,
    minResponseTime: nat,
    maxResponseTime: nat,
    p95ResponseTime: nat,
    p99ResponseTime: nat,
    totalTime: int
  )

  /** `execution.response && execution.response.responseTime` is truthy:
      a response is present and its time is present and non-zero. */
  predicate HasResponseTime(e: Execution) {
    e.response.Some? && e.response.value.responseTime.Some?
    && e.response.value.responseTime.value != 0
  }

  function ResponseTimeOf(e: Execution): (t: nat)
    requires HasResponseTime(e)
    ensures t > 0
  {
    e.response.value.responseTime.value
  }

  /** The response times the `forEach` loop pushes, in execution order. */
  function ResponseTimes(executions: seq<Execution>): (times: seq<nat>)
    ensures |times| <= |executions|
    ensures forall k :: 0 <= k < |times| ==> times[k] > 0
  {
    if |executions| == 0 then []
    else
      var rest := ResponseTimes(executions[1..]);
      if HasResponseTime(executions[0]) then [ResponseTimeOf(executions[0])] + rest else rest
  }

  /** A value is collected exactly when some execution has it as its truthy
      response time. */
  lemma {:induction false} ResponseTimesMembers(executions: seq<Execution>)
    ensures forall i :: 0 <= i < |executions| && HasResponseTime(executions[i]) ==>
              ResponseTimeOf(executions[i]) in ResponseTimes(executions)
    ensures forall t :: t in ResponseTimes(executions) ==>
              exists i :: 0 <= i < |executions| && HasResponseTime(executions[i])
                          && ResponseTimeOf(executions[i]) == t
  {
    if |executions| > 0 {
      ResponseTimesMembers(executions[1..]);
      assert forall i :: 1 <= i < |executions| ==> executions[i] == executions[1..][i - 1];
      forall t | t in ResponseTimes(executions)
        ensures exists i :: 0 <= i < |executions| && HasResponseTime(executions[i])
                            && ResponseTimeOf(executions[i]) == t
      {
        if t !in ResponseTimes(executions[1..]) {
          assert HasResponseTime(executions[0]) && ResponseTimeOf(executions[0]) == t;
        } else {
          var j :| 0 <= j < |executions[1..]| && HasResponseTime(executions[1..][j])
                   && ResponseTimeOf(executions[1..][j]) == t;
          assert executions[j + 1] == executions[1..][j];
        }
      }
    }
  }

  /** Collecting over two consecutive runs of executions yields the two
      collections one after the other: original execution order is kept. */
  lemma {:induction false} ResponseTimesAppend(a: seq<Execution>, b: seq<Execution>)
    ensures ResponseTimes(a + b) == ResponseTimes(a) + ResponseTimes(b)
  {
    if |a| == 0 {
      assert a + b == b;
    } else {
      assert (a + b)[0] == a[0];
      assert (a + b)[1..] == a[1..] + b;
      ResponseTimesAppend(a[1..], b);
    }
  }

  /** What one more execution adds to the collection. */
  function Contribution(e: Execution): seq<nat> {
    if HasResponseTime(e) then [ResponseTimeOf(e)] else []
  }

  lemma ResponseTimesCons(e: Execution, rest: seq<Execution>)
    ensures ResponseTimes([e] + rest) == Contribution(e) + ResponseTimes(rest)
  {
    assert ([e] + rest)[0] == e;
    assert ([e] + rest)[1..] == rest;
  }

  /** Collecting from position `k` on, when execution `k` has a truthy
      response time: that time, then what is collected after it. */
  lemma ResponseTimesKeep(es: seq<Execution>, k: nat, rest: seq<nat>)
    requires k < |es| && HasResponseTime(es[k]) && ResponseTimes(es[k + 1..]) == rest
    ensures ResponseTimes(es[k..]) == [ResponseTimeOf(es[k])] + rest
  {
    assert es[k..] == [es[k]] + es[k + 1..];
    ResponseTimesCons(es[k], es[k + 1..]);
  }

  /** Collecting from position `k` on, when execution `k` has no truthy
      response time: it is skipped. */
  lemma ResponseTimesSkip(es: seq<Execution>, k: nat)
    requires k < |es| && !HasResponseTime(es[k])
    ensures ResponseTimes(es[k..]) == ResponseTimes(es[k + 1..])
  {
    assert es[k..] == [es[k]] + es[k + 1..];
    ResponseTimesCons(es[k], es[k + 1..]);
  }

  lemma ResponseTimesSnoc(a: seq<Execution>, e: Execution)
    ensures ResponseTimes(a + [e]) == ResponseTimes(a) + Contribution(e)
  {
    ResponseTimesAppend(a, [e]);
    assert [e][1..] == [];
  }

  /** Every execution with a truthy response time contributes exactly one
      entry, so the count is the number of such executions. */
  lemma {:induction false} ResponseTimesAllPresent(executions: seq<Execution>)
    requires forall i :: 0 <= i < |executions| ==> HasResponseTime(executions[i])
    ensures |ResponseTimes(executions)| == |executions|
    ensures forall i :: 0 <= i < |executions| ==>
              ResponseTimes(executions)[i] == ResponseTimeOf(executions[i])
  {
    if |executions| > 0 {
      ResponseTimesAllPresent(executions[1..]);
    }
  }

  /** The `forEach` / `push` loop that builds `responseTimes`. */
  method CollectResponseTimes(executions: seq<Execution>) returns (times: seq<nat>)
    ensures times == ResponseTimes(executions)
  {
    times := [];
    var i := 0;
    while i < |executions|
      invariant 0 <= i <= |executions|
      invariant times == ResponseTimes(executions[..i])
    {
      ResponseTimesSnoc(executions[..i], executions[i]);
      assert executions[..i + 1] == executions[..i] + [executions[i]];
      if HasResponseTime(executions[i]) {
        times := times + [ResponseTimeOf(executions[i])];
      }
      i := i + 1;
    }
    assert executions[..i] == executions;
  }

  /** The passing share of `t` requests with `f` failures lies between zero
      and one when failures do not exceed requests, and is one exactly
      without failures. */
  lemma PassingShare(t: real, f: real)
    requires t > 0.0 && f >= 0.0
    ensures f <= t ==> 0.0 <= (t - f) / t <= 1.0
    ensures (t - f) / t == 1.0 <==> f == 0.0
  {
    var r := (t - f) / t;
    assert r * t == t - f;
    SignOfProduct(r, t);
    SignOfProduct(r - 1.0, t);
  }

  lemma SignOfProduct(x: real, t: real)
    requires t > 0.0
    ensures x > 0.0 <==> x * t > 0.0
    ensures x == 0.0 <==> x * t == 0.0
  {
  }

  /** `(total - failed) / total * 100` before rounding. */
  function ExactSuccessRate(total: nat, failed: nat): (rate: real)
    requires total > 0
    ensures failed <= total ==> 0.0 <= rate <= 100.0
    ensures rate == 100.0 <==> failed == 0
  {
    var t, f := total as real, failed as real;
    PassingShare(t, f);
    (t - f) / t * 100.0
  }

  /** The `successRate` field: the exact rate after `toFixed(2)`, or `None`
      when `total` is zero and the quotient is not a finite number. */
  function SuccessRate(total: nat, failed: nat): (rate: Option<real>)
    ensures rate.None? <==> total == 0
    ensures total > 0 && failed <= total ==> 0.0 <= rate.value <= 100.0
    ensures total > 0 && failed == 0 ==> rate == Some(100.0)
    ensures total > 0 ==>
              ExactSuccessRate(total, failed) - 0.005 <= rate.value <= ExactSuccessRate(total, failed) + 0.005
    ensures total > 0 ==> (rate.value * 100.0).Floor as real == rate.value * 100.0
  {
    if total == 0 then None
    else
      var exact := ExactSuccessRate(total, failed);
      assert failed <= total ==> 0.0 <= Fixed2(exact) <= 100.0 by {
        if failed <= total {
          Fixed2Between(exact, 0, 100);
        }
      }
      Fixed2OfInteger(100);
      Some(Fixed2(exact))
  }

  /** The `avgResponseTime` field: the mean after `toFixed(2)`, or `0` when
      no response time was collected. */
  function AverageResponseTime(times: seq<nat>): (avg: real)
    ensures |times| == 0 ==> avg == 0.0
    ensures |times| > 0 ==> Min(times) as real <= avg <= Max(times) as real
    ensures |times| > 0 ==>
              Sum(times) as real / |times| as real - 0.005 <= avg <= Sum(times) as real / |times| as real + 0.005
    ensures (avg * 100.0).Floor as real == avg * 100.0
  {
    if |times| == 0 then 0.0
    else
      var n := |times|;
      var mean := Sum(times) as real / n as real;
      SumBounds(times, Min(times), Max(times));
      MeanBetween(Sum(times), n, Min(times), Max(times));
      Fixed2Between(mean, Min(times), Max(times));
      Fixed2(mean)
  }

  /** `n * lo <= sum <= n * hi` puts the mean `sum / n` between `lo` and `hi`. */
  lemma MeanBetween(sum: nat, n: nat, lo: nat, hi: nat)
    requires n > 0
    requires n * lo <= sum <= n * hi
    ensures lo as real <= sum as real / n as real <= hi as real
  {
    assert (n * lo) as real == n as real * lo as real;
    assert (n * hi) as real == n as real * hi as real;
    assert sum as real / n as real * n as real == sum as real;
  }

  /** Both percentiles of a non-empty collection are collected values,
      lie between its minimum and maximum in order, and sit at their
      nearest-rank positions among the unsorted values. */
  lemma PercentilesOfTimes(times: seq<nat>)
    ensures |times| > 0 ==>
            var sorted := SortAscending(times);
            && Min(times) <= Percentile(sorted, 95) <= Percentile(sorted, 99) <= Max(times)
            && Percentile(sorted, 95) in times && Percentile(sorted, 99) in times
            && HasRank(times, PercentileIndex(|times|, 95), Percentile(sorted, 95))
            && HasRank(times, PercentileIndex(|times|, 99), Percentile(sorted, 99))
  {
    if |times| > 0 {
      MinMaxAreSortedEnds(times);
      PercentileMonotone(SortAscending(times), 95, 99);
      PercentileOfSorted(times, 95);
      PercentileOfSorted(times, 99);
    }
  }

  /** `analyzeResults` on a document that exists. */
  function AnalyzeDocument(doc: Document): (m: Metrics)
    ensures m.totalRequests == doc.total && m.failedRequests == doc.failed
    ensures m.successRate == SuccessRate(doc.total, doc.failed)
    ensures m.avgResponseTime == AverageResponseTime(ResponseTimes(doc.executions))
    ensures m.successRate.None? <==> doc.total == 0
    ensures doc.total > 0 && doc.failed <= doc.total ==>
              0.0 <= m.successRate.value <= 100.0
    ensures doc.total > 0 ==>
              var exact := ExactSuccessRate(doc.total, doc.failed);
              exact - 0.005 <= m.successRate.value <= exact + 0.005
    ensures m.totalTime == doc.completed - doc.started
    ensures var times := ResponseTimes(doc.executions);
            |times| == 0 ==>
              && m.avgResponseTime == 0.0
              && m.minResponseTime == 0 && m.maxResponseTime == 0
              && m.p95ResponseTime == 0 && m.p99ResponseTime == 0
    ensures var times := ResponseTimes(doc.executions);
            |times| > 0 ==>
              && m.minResponseTime in times && m.maxResponseTime in times
              && (forall k :: 0 <= k < |times| ==>
                    m.minResponseTime <= times[k] <= m.maxResponseTime)
              && m.minResponseTime <= m.p95ResponseTime <= m.p99ResponseTime <= m.maxResponseTime
              && m.minResponseTime as real <= m.avgResponseTime <= m.maxResponseTime as real
    ensures var times := ResponseTimes(doc.executions);
            |times| > 0 ==>
              var mean := Sum(times) as real / |times| as real;
              mean - 0.005 <= m.avgResponseTime <= mean + 0.005
    ensures var times := ResponseTimes(doc.executions);
            |times| > 0 ==>
              && m.p95ResponseTime in times && m.p99ResponseTime in times
              && HasRank(times, PercentileIndex(|times|, 95), m.p95ResponseTime)
              && HasRank(times, PercentileIndex(|times|, 99), m.p99ResponseTime)
  {
    var times := ResponseTimes(doc.executions);
    var sorted := SortAscending(times);
    var minTime := if |times| > 0 then Min(times) else 0;
    var maxTime := if |times| > 0 then Max(times) else 0;
    PercentilesOfTimes(times);
    Metrics(
      doc.total,
      doc.failed,
      SuccessRate(doc.total, doc.failed),
      AverageResponseTime(times),
      minTime,
      maxTime,
      Percentile(sorted, 95),
      Percentile(sorted, 99),
      doc.completed - doc.started
    )
  }

  /** `analyzeResults(jsonFile)`: `null` when the file does not exist,
      otherwise the metrics of the parsed document. */
  function AnalyzeResults(source: Option<Document>): (m: Option<Metrics>)
    ensures m.None? <==> source.None?
    ensures source.Some? ==> m.value.totalRequests == source.value.total
    ensures source.Some? ==> m == Some(AnalyzeDocument(source.value))
  {
    match source
    case None => None
    case Some(doc) => Some(AnalyzeDocument(doc))
  }
}

=== FILE: examples.dfy ===
/** Worked runs of the analysis, each stated as a lemma about concrete
    documents. */
module Examples {
  import opened Optional
  import opened Stats
  import opened Rounding
  import opened Analysis

  function Timed(t: nat): Execution {
    Execution(Some(Response(Some(t))))
  }

  /** Ten requests with one failure: a success rate of 90.00. */
  lemma TenRequestsOneFailure()
    ensures SuccessRate(10, 1) == Some(90.0)
  {
    assert ExactSuccessRate(10, 1) == 90.0;
    Fixed2OfInteger(90);
  }

  /** 1 failure in 100000 requests rounds to "100.00": the rate looks perfect
      while the failed-requests count is not zero. */
  lemma RoundedRateHidesOneFailure()
    ensures SuccessRate(100000, 1) == Some(100.0)
  {
    var exact := ExactSuccessRate(100000, 1);
    assert exact == 99.999;
    assert (exact * 100.0 + 0.5).Floor == 10000;
  }

  /** 1001 failures in 20000 requests give exactly 94.995, a decimal tie,
      which the exact-real rounding takes up to 95.00. */
  lemma DecimalTieRoundsUp()
    ensures SuccessRate(20000, 1001) == Some(95.0)
  {
    var exact := ExactSuccessRate(20000, 1001);
    assert exact == 94.995;
    assert (exact * 100.0 + 0.5).Floor == 9500;
  }

  /** Response times 100, 200, 300, 400, 500, with one execution without a
      response and one with a zero time in between, both skipped. */
  lemma FiveResponseTimes()
    ensures var m := AnalyzeDocument(Document(
              7, 0,
              [Timed(100), Execution(None), Timed(200), Timed(300), Timed(0), Timed(400), Timed(500)],
              1000, 4500));
            && m.successRate == Some(100.0)
            && m.avgResponseTime == 300.0
            && m.minResponseTime == 100 && m.maxResponseTime == 500
            && m.p95ResponseTime == 500 && m.p99ResponseTime == 500
            && m.totalTime == 3500
  {
    FiveTimesCollected();
    FiveValuesPercentiles([100, 200, 300, 400, 500]);
    FiveTimesAverage();
    Fixed2OfInteger(100);
  }

  lemma FiveTimesCollected()
    ensures ResponseTimes([Timed(100), Execution(None), Timed(200), Timed(300), Timed(0), Timed(400), Timed(500)])
            == [100, 200, 300, 400, 500]
  {
    SkipsMissingAndZero([Timed(100), Execution(None), Timed(200), Timed(300), Timed(0), Timed(400), Timed(500)],
                        100, 200, 300, 400, 500);
  }

  /** A missing response and a zero time between five positive times are
      skipped, and the five times keep their order. */
  lemma SkipsMissingAndZero(es: seq<Execution>, a: nat, b: nat, c: nat, d: nat, e: nat)
    requires a > 0 && b > 0 && c > 0 && d > 0 && e > 0
    requires |es| == 7 && es[0] == Timed(a) && es[1] == Execution(None) && es[2] == Timed(b)
             && es[3] == Timed(c) && es[4] == Timed(0) && es[5] == Timed(d) && es[6] == Timed(e)
    ensures ResponseTimes(es) == [a, b, c, d, e]
  {
    assert es[7..] == [];
    ResponseTimesKeep(es, 6, []);
    ResponseTimesKeep(es, 5, [e]);
    ResponseTimesSkip(es, 4);
    ResponseTimesKeep(es, 3, [d, e]);
    ResponseTimesKeep(es, 2, [c, d, e]);
    ResponseTimesSkip(es, 1);
    ResponseTimesKeep(es, 0, [b, c, d, e]);
    assert es[0..] == es;
  }

  /** With five ascending values, both percentiles read the last position,
      the largest value. */
  lemma FiveValuesPercentiles(s: seq<nat>)
    requires |s| == 5 && Sorted(s)
    ensures Percentile(SortAscending(s), 95) == s[4]
    ensures Percentile(SortAscending(s), 99) == s[4]
  {
    SortSortedIsIdentity(s);
    assert PercentileIndex(5, 95) == 4 && PercentileIndex(5, 99) == 4;
  }

  lemma FiveTimesAverage()
    ensures var times: seq<nat> := [100, 200, 300, 400, 500];
            && Min(times) == 100 && Max(times) == 500
            && AverageResponseTime(times) == 300.0
  {
    var times: seq<nat> := [100, 200, 300, 400, 500];
    SortedMinMax(times);
    assert Sum(times) == 1500;
    assert Sum(times) as real / 5.0 == 300.0;
    Fixed2OfInteger(300);
  }

  /** For the values 1..100 the 95th percentile reads index 95, the value 96,
      and the 99th reads index 99, the value 100. */
  lemma OneToHundredPercentiles()
    ensures var s := seq(100, i => i + 1);
            && Percentile(SortAscending(s), 95) == 96
            && Percentile(SortAscending(s), 99) == 100
  {
    var s: seq<nat> := seq(100, i => i + 1);
    SortSortedIsIdentity(s);
  }

  /** No response times at all: every latency metric is 0. */
  lemma NoResponseTimes()
    ensures var m := AnalyzeDocument(Document(2, 2, [Execution(None), Timed(0)], 0, 10));
            && m.avgResponseTime == 0.0 && m.minResponseTime == 0 && m.maxResponseTime == 0
            && m.p95ResponseTime == 0 && m.p99ResponseTime == 0
            && m.successRate == Some(0.0)
  {
    var execs := [Execution(None), Timed(0)];
    assert ResponseTimes(execs) == [];
    Fixed2OfInteger(0);
  }
}

=== FILE: optional.dfy ===
/** The absent-or-present wrapper used wherever the summary script works with
    `null`: a results file that does not exist, an execution without a
    response, a response without a response time. */
module Optional {

  datatype Option<+T> = None | Some(value: T)
}

=== FILE: report.dfy ===
/** The logic inside `generateHTMLDashboard` and `generateMarkdownSummary`,
    without the HTML and Markdown text: which sections appear, which metrics
    each shows and which status each metric gets. */
module Report {
  import opened Optional
  import opened Thresholds
  import opened Analysis

  /** The two results files: `performance-results.json` and
      `load-test-results.json`. */
  datatype TestKind = Performance | Load

  datatype Metric =
    | SuccessRateMetric
    | AvgResponseTimeMetric
    | P95ResponseTimeMetric
    | MaxResponseTimeMetric
    | TotalRequestsMetric
    | FailedRequestsMetric

  /** The Status column of a summary row: a judged status, or the fixed
      information sign of the total-requests row. */
  datatype Mark = Judged(status: Status) | Info

  datatype Row = Row(metric: Metric, mark: Mark)

  /** A summary section: the "No ... test data available" placeholder, or
      the metric table. */
  datatype SummarySection = NoData | Table(rows: seq<Row>)

  /** A dashboard metric card; only the success-rate card carries a status
      class. */
  datatype Card = Card(metric: Metric, cssClass: Option<Status>)

  datatype Rendered = Rendered(
    dashboard: seq<(TestKind, seq<Card>)>,
    summary: seq<(TestKind, SummarySection)>
  )

  /** The Status column for `metric`, judged on the metrics record `m`. */
  function Judge(metric: Metric, m: Metrics): (mark: Mark)
    ensures mark == Info <==> metric == TotalRequestsMetric
    ensures metric == FailedRequestsMetric ==>
              (mark == Judged(Good) <==> m.failedRequests == 0)
  {
    match metric
    case SuccessRateMetric => Judged(SuccessRateStatus(m.successRate))
    case AvgResponseTimeMetric => Judged(AvgStatus(m.avgResponseTime))
    case P95ResponseTimeMetric => Judged(P95Status(m.p95ResponseTime))
    case MaxResponseTimeMetric => Judged(MaxStatus(m.maxResponseTime))
    case TotalRequestsMetric => Info
    case FailedRequestsMetric => Judged(FailedStatus(m.failedRequests))
  }

  /** The rows of each summary table, top to bottom. */
  function SummaryMetrics(kind: TestKind): seq<Metric> {
    match kind
    case Performance =>
      [SuccessRateMetric, AvgResponseTimeMetric, P95ResponseTimeMetric,
       TotalRequestsMetric, FailedRequestsMetric]
    case Load =>
      [SuccessRateMetric, AvgResponseTimeMetric, MaxResponseTimeMetric,
       TotalRequestsMetric]
  }

  /** The cards of each dashboard grid, left to right. */
  function DashboardMetrics(kind: TestKind): seq<Metric> {
    match kind
    case Performance =>
      [SuccessRateMetric, AvgResponseTimeMetric, P95ResponseTimeMetric, TotalRequestsMetric]
    case Load =>
      [SuccessRateMetric, AvgResponseTimeMetric, MaxResponseTimeMetric, TotalRequestsMetric]
  }

  /** One Markdown summary section. */
  function Summary(kind: TestKind, data: Option<Metrics>): (s: SummarySection)
    ensures s.NoData? <==> data.None?
    ensures s.Table? ==> |s.rows| == |SummaryMetrics(kind)|
    ensures s.Table? ==> forall k :: 0 <= k < |s.rows| ==>
              s.rows[k].metric == SummaryMetrics(kind)[k]
              && s.rows[k].mark == Judge(s.rows[k].metric, data.value)
  {
    match data
    case None => NoData
    case Some(m) =>
      var metrics := SummaryMetrics(kind);
      Table(seq(|metrics|, k requires 0 <= k < |metrics| => Row(metrics[k], Judge(metrics[k], m))))
  }

  /** One dashboard grid, or nothing at all when the data is missing. */
  function Dashboard(kind: TestKind, data: Option<Metrics>): (cards: Option<seq<Card>>)
    ensures cards.None? <==> data.None?
    ensures cards.Some? ==> |cards.value| == |DashboardMetrics(kind)|
    ensures cards.Some? ==> forall k :: 0 <= k < |cards.value| ==>
              cards.value[k].metric == DashboardMetrics(kind)[k]
              && (cards.value[k].cssClass.Some? <==> cards.value[k].metric == SuccessRateMetric)
  {
    match data
    case None => None
    case Some(m) =>
      var metrics := DashboardMetrics(kind);
      Some(seq(|metrics|, k requires 0 <= k < |metrics| =>
        Card(metrics[k],
             if metrics[k] == SuccessRateMetric then Some(SuccessRateStatus(m.successRate)) else None)))
  }

  /** Both artifacts from the two (possibly missing) metrics records. */
  function Render(performance: Option<Metrics>, load: Option<Metrics>): (r: Rendered)
    ensures |r.summary| == 2
    ensures r.summary[0].0 == Performance && r.summary[1].0 == Load
    ensures r.summary[0].1.NoData? <==> performance.None?
    ensures r.summary[1].1.NoData? <==> load.None?
    ensures |r.dashboard| == (if performance.Some? then 1 else 0) + (if load.Some? then 1 else 0)
    ensures forall k :: 0 <= k < |r.dashboard| ==>
              (r.dashboard[k].0 == Performance ==> performance.Some?)
              && (r.dashboard[k].0 == Load ==> load.Some?)
    ensures r.summary[0].1 == Summary(Performance, performance)
    ensures r.summary[1].1 == Summary(Load, load)
    ensures performance.Some? ==>
              r.dashboard[0] == (Performance, Dashboard(Performance, performance).value)
    ensures load.Some? ==>
              r.dashboard[|r.dashboard| - 1] == (Load, Dashboard(Load, load).value)
  {
    var perfCards := if performance.Some? then [(Performance, Dashboard(Performance, performance).value)] else [];
    var loadCards := if load.Some? then [(Load, Dashboard(Load, load).value)] else [];
    Rendered(
      perfCards + loadCards,
      [(Performance, Summary(Performance, performance)), (Load, Summary(Load, load))]
    )
  }

  /** The whole run, without the file system: analyse each results file that
      exists and render both artifacts. */
  function GenerateSummary(performance: Option<Document>, load: Option<Document>): (r: Rendered)
    ensures |r.summary| == 2
    ensures r.summary[0].1.NoData? <==> performance.None?
    ensures r.summary[1].1.NoData? <==> load.None?
    ensures performance.None? && load.None? ==> r.dashboard == []
  {
    Render(AnalyzeResults(performance), AnalyzeResults(load))
  }

  /** Every judged mark of a section is Good. */
  predicate AllGood(s: SummarySection) {
    s.Table? && forall k :: 0 <= k < |s.rows| ==> s.rows[k].mark.Judged? ==> s.rows[k].mark.status == Good
  }

  /** The largest collected response time bounds every execution's truthy
      response time. */
  lemma MaxBoundsEveryExecution(doc: Document, i: nat)
    requires i < |doc.executions| && HasResponseTime(doc.executions[i])
    ensures ResponseTimeOf(doc.executions[i]) <= AnalyzeDocument(doc).maxResponseTime
  {
    ResponseTimesMembers(doc.executions);
  }

  /** The thresholds every Good row must meet, on one metrics record. */
  lemma AllGoodWhenWithinLimits(kind: TestKind, m: Metrics)
    requires m.successRate == Some(100.0) && m.failedRequests == 0
    requires m.avgResponseTime <= 1000.0
    requires m.p95ResponseTime <= 1000 && m.maxResponseTime <= 1000
    ensures AllGood(Summary(kind, Some(m)))
  {
  }

  /** A run with requests, no failures and no response slower than 1000 ms
      is Good on every judged row of both summary tables. */
  lemma HealthyRunAllGood(doc: Document)
    requires doc.total > 0 && doc.failed == 0
    requires forall i :: 0 <= i < |doc.executions| && HasResponseTime(doc.executions[i]) ==>
               ResponseTimeOf(doc.executions[i]) <= 1000
    ensures AllGood(Summary(Performance, Some(AnalyzeDocument(doc))))
    ensures AllGood(Summary(Load, Some(AnalyzeDocument(doc))))
  {
    var m := AnalyzeDocument(doc);
    var times := ResponseTimes(doc.executions);
    if |times| > 0 {
      ResponseTimesMembers(doc.executions);
      var i :| 0 <= i < |doc.executions| && HasResponseTime(doc.executions[i])
               && ResponseTimeOf(doc.executions[i]) == m.maxResponseTime;
      assert m.maxResponseTime <= 1000;
    }
    assert m.avgResponseTime <= 1000.0;
    assert m.p95ResponseTime <= 1000;
    AllGoodWhenWithinLimits(Performance, m);
    AllGoodWhenWithinLimits(Load, m);
  }

  /** One response slower than 10000 ms makes the load table's maximum
      response time Bad. */
  lemma SlowResponseFlagged(doc: Document, i: nat)
    requires i < |doc.executions| && HasResponseTime(doc.executions[i])
    requires ResponseTimeOf(doc.executions[i]) > 10000
    ensures Summary(Load, Some(AnalyzeDocument(doc))).rows[2].mark == Judged(Bad)
  {
    MaxBoundsEveryExecution(doc, i);
    var m := AnalyzeDocument(doc);
    assert m.maxResponseTime > 10000;
    LoadMaxRow(m);
  }

  /** The third row of the load table judges the maximum response time. */
  lemma LoadMaxRow(m: Metrics)
    ensures Summary(Load, Some(m)).rows[2] == Row(MaxResponseTimeMetric, Judged(MaxStatus(m.maxResponseTime)))
  {
  }

  /** The performance table, row by row: the success rate, the average
      (1000/3000 ms), the 95th percentile (2000/5000 ms), the total with the
      information mark, and the failed requests. */
  lemma PerformanceTable(m: Metrics)
    ensures Summary(Performance, Some(m)).rows == [
              Row(SuccessRateMetric, Judged(SuccessRateStatus(m.successRate))),
              Row(AvgResponseTimeMetric, Judged(AvgStatus(m.avgResponseTime))),
              Row(P95ResponseTimeMetric, Judged(P95Status(m.p95ResponseTime))),
              Row(TotalRequestsMetric, Info),
              Row(FailedRequestsMetric, Judged(FailedStatus(m.failedRequests)))]
  {
  }

  /** The load table, row by row: the success rate, the average
      (1000/3000 ms), the maximum (5000/10000 ms) and the total with the
      information mark. */
  lemma LoadTable(m: Metrics)
    ensures Summary(Load, Some(m)).rows == [
              Row(SuccessRateMetric, Judged(SuccessRateStatus(m.successRate))),
              Row(AvgResponseTimeMetric, Judged(AvgStatus(m.avgResponseTime))),
              Row(MaxResponseTimeMetric, Judged(MaxStatus(m.maxResponseTime))),
              Row(TotalRequestsMetric, Info)]
  {
  }

  /** The dashboard grids card by card; only the success-rate card is
      classed, by the same thresholds as the summary. */
  lemma DashboardGrids(m: Metrics)
    ensures Dashboard(Performance, Some(m)) == Some([
              Card(SuccessRateMetric, Some(SuccessRateStatus(m.successRate))),
              Card(AvgResponseTimeMetric, None),
              Card(P95ResponseTimeMetric, None),
              Card(TotalRequestsMetric, None)])
    ensures Dashboard(Load, Some(m)) == Some([
              Card(SuccessRateMetric, Some(SuccessRateStatus(m.successRate))),
              Card(AvgResponseTimeMetric, None),
              Card(MaxResponseTimeMetric, None),
              Card(TotalRequestsMetric, None)])
  {
    var status := Some(SuccessRateStatus(m.successRate));
    var perf := DashboardMetrics(Performance);
    assert Dashboard(Performance, Some(m)).value == [
      Card(perf[0], status), Card(perf[1], None), Card(perf[2], None), Card(perf[3], None)];
    var load := DashboardMetrics(Load);
    assert Dashboard(Load, Some(m)).value == [
      Card(load[0], status), Card(load[1], None), Card(load[2], None), Card(load[3], None)];
  }

  /** With zero requests the success rate is not a finite number and its
      mark is Bad in both artifacts. */
  lemma NoRequestsRateBad(doc: Document, kind: TestKind)
    requires doc.total == 0
    ensures Summary(kind, Some(AnalyzeDocument(doc))).rows[0].mark == Judged(Bad)
    ensures Dashboard(kind, Some(AnalyzeDocument(doc))).value[0].cssClass == Some(Bad)
  {
  }

  /** The dashboard's success-rate card class and the summary's success-rate
      mark always agree. */
  lemma DashboardAgreesWithSummary(kind: TestKind, m: Metrics)
    ensures Dashboard(kind, Some(m)).value[0].cssClass ==
            Some(Summary(kind, Some(m)).rows[0].mark.status)
  {
  }
}

=== FILE: rounding.dfy ===
/** `Number.prototype.toFixed(2)` as the summary script uses it: the success
    rate and the average response time are stored as two-decimal strings and
    later compared with numeric thresholds, which reads them back as numbers.
    The model works on exact reals, so it rounds the mathematical value rather
    than the nearest IEEE-754 double. */
module Rounding {

  /** For `x >= 0`, the multiple of 1/100 nearest to `x`, the larger one on a
      tie: the integer `n` that `toFixed(2)` picks, divided by 100. */
  function HalfUp(x: real): (r: real)
    requires x >= 0.0
    ensures 0.0 <= r
    ensures x - 0.005 < r <= x + 0.005
    ensures (r * 100.0).Floor as real == r * 100.0
  {
    var n := (x * 100.0 + 0.5).Floor;
    assert (n as real / 100.0) * 100.0 == n as real;
    n as real / 100.0
  }

  /** `toFixed(2)` read back as a number. A negative argument is rounded by
      magnitude and the sign put back, so ties go away from zero. */
  function Fixed2(x: real): (r: real)
    ensures x - 0.005 <= r <= x + 0.005
    ensures (r * 100.0).Floor as real == r * 100.0
    ensures x >= 0.0 ==> r >= 0.0
  {
    if x >= 0.0 then HalfUp(x)
    else
      var h := HalfUp(-x);
      assert (-h * 100.0).Floor == -((h * 100.0).Floor);
      -h
  }

  /** Rounding never reverses the order of two values. */
  lemma Fixed2Monotone(x: real, y: real)
    requires x <= y
    ensures Fixed2(x) <= Fixed2(y)
  {
    if 0.0 <= x {
      assert (x * 100.0 + 0.5).Floor <= (y * 100.0 + 0.5).Floor;
    } else if y < 0.0 {
      assert (-y * 100.0 + 0.5).Floor <= (-x * 100.0 + 0.5).Floor;
    }
  }

  /** A whole number is printed with `.00` and reads back unchanged. */
  lemma Fixed2OfInteger(k: int)
    ensures Fixed2(k as real) == k as real
  {
    if k >= 0 {
      assert (k as real * 100.0 + 0.5).Floor == k * 100;
    } else {
      assert (-(k as real) * 100.0 + 0.5).Floor == -k * 100;
    }
  }

  /** A value between two whole numbers stays between them after rounding. */
  lemma Fixed2Between(x: real, lo: int, hi: int)
    requires lo as real <= x <= hi as real
    ensures lo as real <= Fixed2(x) <= hi as real
  {
    Fixed2Monotone(lo as real, x);
    Fixed2Monotone(x, hi as real);
    Fixed2OfInteger(lo);
    Fixed2OfInteger(hi);
  }
}

=== FILE: stats.dfy ===
/** Descriptive statistics over the response times of one test run: sum,
    minimum, maximum, ascending sort and the floor-index nearest-rank
    percentile used by the summary script. Response times are whole
    milliseconds, so every value is a `nat`. */
module Stats {

  /** `s` is in ascending order. */
  predicate Sorted(s: seq<nat>) {
    forall i, j :: 0 <= i < j < |s| ==> s[i] <= s[j]
  }

  /** Sum of the values, as `times.reduce((a, b) => a + b, 0)` computes it
      (exact while the sum stays below 2^53, where JavaScript's doubles
      still hold every integer). */
  function Sum(s: seq<nat>): nat {
    if |s| == 0 then 0 else s[0] + Sum(s[1..])
  }

  /** `Math.min(...s)` on a non-empty sequence. */
  function Min(s: seq<nat>): (m: nat)
    requires |s| > 0
    ensures m in s
    ensures forall i :: 0 <= i < |s| ==> m <= s[i]
  {
    if |s| == 1 then s[0]
    else
      var rest := Min(s[1..]);
      if s[0] <= rest then s[0] else rest
  }

  /** `Math.max(...s)` on a non-empty sequence. */
  function Max(s: seq<nat>): (m: nat)
    requires |s| > 0
    ensures m in s
    ensures forall i :: 0 <= i < |s| ==> s[i] <= m
  {
    if |s| == 1 then s[0]
    else
      var rest := Max(s[1..]);
      if s[0] >= rest then s[0] else rest
  }

  /** Places `x` into an already ascending sequence. */
  function Insert(x: nat, s: seq<nat>): (r: seq<nat>)
    requires Sorted(s)
    ensures Sorted(r)
    ensures multiset(r) == multiset(s) + multiset{x}
  {
    if |s| == 0 || x <= s[0] then [x] + s
    else
      var tail := Insert(x, s[1..]);
      assert s == [s[0]] + s[1..];
      LowerBoundKept(tail, s[1..], x, s[0]);
      SortedCons(s[0], tail);
      [s[0]] + tail
  }

  /** A value no larger than any value of an ascending sequence can be put
      in front of it. */
  lemma SortedCons(h: nat, t: seq<nat>)
    requires Sorted(t)
    requires forall k :: 0 <= k < |t| ==> h <= t[k]
    ensures Sorted([h] + t)
  {
  }

  /** A bound below every value of `rest` and below `x` is below every
      value of any permutation of `rest` plus `x`. */
  lemma LowerBoundKept(t: seq<nat>, rest: seq<nat>, x: nat, lo: nat)
    requires forall k :: 0 <= k < |rest| ==> lo <= rest[k]
    requires lo <= x
    requires multiset(t) == multiset(rest) + multiset{x}
    ensures forall k :: 0 <= k < |t| ==> lo <= t[k]
  {
    forall k | 0 <= k < |t|
      ensures lo <= t[k]
    {
      assert t[k] in multiset(t);
      if t[k] != x {
        assert t[k] in multiset(rest);
      }
    }
  }

  /** The numeric ascending sort `times.sort((a, b) => a - b)`: an ascending
      permutation of its input. */
  function SortAscending(s: seq<nat>): (r: seq<nat>)
    ensures Sorted(r)
    ensures multiset(r) == multiset(s)
    ensures |r| == |s|
  {
    if |s| == 0 then []
    else
      assert s == [s[0]] + s[1..];
      var r := Insert(s[0], SortAscending(s[1..]));
      assert |r| == |multiset(r)|;
      r
  }

  /** The head of an ascending sequence is no larger than any of its values. */
  lemma HeadIsLeast(a: seq<nat>, x: nat)
    requires Sorted(a)
    requires x in multiset(a)
    ensures |a| > 0 && a[0] <= x
  {
    var k :| 0 <= k < |a| && a[k] == x;
  }

  /** Removing the head of a sequence removes one occurrence from its multiset. */
  lemma TailMultiset(a: seq<nat>)
    requires |a| > 0
    ensures multiset(a[1..]) == multiset(a) - multiset{a[0]}
  {
    assert a == [a[0]] + a[1..];
  }

  /** There is only one ascending permutation of a sequence, so any correct
      sort (whatever algorithm the JavaScript engine uses) yields the result
      of `SortAscending`. */
  lemma {:induction false} SortedPermutationUnique(a: seq<nat>, b: seq<nat>)
    requires Sorted(a) && Sorted(b)
    requires multiset(a) == multiset(b)
    ensures a == b
    decreases |a|
  {
    assert |a| == |multiset(a)| == |multiset(b)| == |b|;
    if |a| > 0 {
      SameHead(a, b);
      TailMultiset(a);
      TailMultiset(b);
      SortedTail(a);
      SortedTail(b);
      SortedPermutationUnique(a[1..], b[1..]);
      SameHeadSameTail(a, b);
    }
  }

  /** Two ascending permutations of each other start with the same value. */
  lemma SameHead(a: seq<nat>, b: seq<nat>)
    requires Sorted(a) && Sorted(b) && |a| > 0 && |b| > 0
    requires multiset(a) == multiset(b)
    ensures a[0] == b[0]
  {
    assert a[0] in multiset(a);
    assert b[0] in multiset(b);
    HeadIsLeast(b, a[0]);
    HeadIsLeast(a, b[0]);
  }

  lemma SameHeadSameTail(a: seq<nat>, b: seq<nat>)
    requires |a| > 0 && |b| > 0 && a[0] == b[0] && a[1..] == b[1..]
    ensures a == b
  {
    assert a == [a[0]] + a[1..];
    assert b == [b[0]] + b[1..];
  }

  /** The tail of an ascending sequence is ascending. */
  lemma SortedTail(a: seq<nat>)
    requires Sorted(a) && |a| > 0
    ensures Sorted(a[1..])
  {
  }

  /** Sorting an already ascending sequence leaves it unchanged. */
  lemma SortSortedIsIdentity(s: seq<nat>)
    requires Sorted(s)
    ensures SortAscending(s) == s
  {
    SortedPermutationUnique(SortAscending(s), s);
  }

  /** The last value of an ascending sequence is no smaller than any of its
      values. */
  lemma LastIsGreatest(a: seq<nat>, x: nat)
    requires Sorted(a)
    requires x in multiset(a)
    ensures |a| > 0 && x <= a[|a| - 1]
  {
    var k :| 0 <= k < |a| && a[k] == x;
  }

  /** On an ascending sequence the minimum is the first value and the
      maximum the last. */
  lemma SortedMinMax(s: seq<nat>)
    requires Sorted(s) && |s| > 0
    ensures Min(s) == s[0] && Max(s) == s[|s| - 1]
  {
  }

  /** The minimum and maximum computed on the unsorted values are the ends
      of the sorted sequence. */
  lemma MinMaxAreSortedEnds(s: seq<nat>)
    requires |s| > 0
    ensures Min(s) == SortAscending(s)[0]
    ensures Max(s) == SortAscending(s)[|s| - 1]
  {
    var t := SortAscending(s);
    assert Min(s) in multiset(t) && Max(s) in multiset(t);
    HeadIsLeast(t, Min(s));
    LastIsGreatest(t, Max(s));
    assert t[0] in multiset(s) && t[|t| - 1] in multiset(s);
  }

  /** Every value bounded by `lo` and `hi` bounds the sum by `n * lo` and
      `n * hi`. */
  lemma {:induction false} SumBounds(s: seq<nat>, lo: nat, hi: nat)
    requires forall i :: 0 <= i < |s| ==> lo <= s[i] <= hi
    ensures |s| * lo <= Sum(s) <= |s| * hi
  {
    if |s| > 0 {
      SumBounds(s[1..], lo, hi);
      OneMore(|s| - 1, lo);
      OneMore(|s| - 1, hi);
    }
  }

  lemma OneMore(n: nat, k: nat)
    ensures (n + 1) * k == k + n * k
  {
  }

  /** `Math.floor(n * pct / 100)` in exact integer arithmetic. The script
      multiplies `n` by the double `0.95` or `0.99`; exact arithmetic is used
      here instead. */
  function PercentileIndex(n: nat, pct: nat): (i: nat)
    requires pct < 100
    ensures n > 0 ==> i < n
    ensures i <= n
  {
    n * pct / 100
  }

  /** A higher percentile never picks an earlier position. */
  lemma PercentileIndexMonotone(n: nat, p: nat, q: nat)
    requires p <= q < 100
    ensures PercentileIndex(n, p) <= PercentileIndex(n, q)
  {
    ScaleMonotone(n, p, q);
    HundredthsMonotone(n * p, n * q);
  }

  lemma {:induction false} ScaleMonotone(n: nat, p: nat, q: nat)
    requires p <= q
    ensures n * p <= n * q
  {
    if n > 0 {
      ScaleMonotone(n - 1, p, q);
      assert n * p == (n - 1) * p + p && n * q == (n - 1) * q + q;
    }
  }

  lemma HundredthsMonotone(x: nat, y: nat)
    requires x <= y
    ensures x / 100 <= y / 100
  {
    assert x / 100 * 100 <= x;
    assert y < (y / 100 + 1) * 100;
  }

  /** How many values are strictly below `v`. */
  function CountBelow(s: seq<nat>, v: nat): nat {
    if |s| == 0 then 0 else (if s[0] < v then 1 else 0) + CountBelow(s[1..], v)
  }

  /** How many values are at most `v`. */
  function CountAtMost(s: seq<nat>, v: nat): nat {
    if |s| == 0 then 0 else (if s[0] <= v then 1 else 0) + CountAtMost(s[1..], v)
  }

  /** `v` sits at rank `i` of the values `s`: fewer than `i + 1` of them lie
      below `v`, and more than `i` lie at or below it. On an ascending
      sequence exactly one value has a given rank: the one at index `i`. */
  predicate HasRank(s: seq<nat>, i: nat, v: nat) {
    CountBelow(s, v) <= i < CountAtMost(s, v)
  }

  lemma {:induction false} CountsAppend(a: seq<nat>, b: seq<nat>, v: nat)
    ensures CountBelow(a + b, v) == CountBelow(a, v) + CountBelow(b, v)
    ensures CountAtMost(a + b, v) == CountAtMost(a, v) + CountAtMost(b, v)
  {
    if |a| == 0 {
      assert a + b == b;
    } else {
      assert (a + b)[0] == a[0];
      assert (a + b)[1..] == a[1..] + b;
      CountsAppend(a[1..], b, v);
    }
  }

  /** The counts depend only on the multiset of values, not on their order:
      the rank of a value is the same before and after sorting. */
  lemma {:induction false} CountsRespectMultiset(a: seq<nat>, b: seq<nat>, v: nat)
    requires multiset(a) == multiset(b)
    ensures CountBelow(a, v) == CountBelow(b, v)
    ensures CountAtMost(a, v) == CountAtMost(b, v)
    decreases |a|
  {
    assert |a| == |multiset(a)| == |multiset(b)| == |b|;
    if |a| > 0 {
      assert a[0] in multiset(b);
      var k :| 0 <= k < |b| && b[k] == a[0];
      var rest := b[..k] + b[k + 1..];
      assert b == b[..k] + [b[k]] + b[k + 1..];
      assert multiset(rest) == multiset(b) - multiset{a[0]};
      TailMultiset(a);
      CountsRespectMultiset(a[1..], rest, v);
      CountsAppend(b[..k] + [b[k]], b[k + 1..], v);
      CountsAppend(b[..k], [b[k]], v);
      CountsAppend(b[..k], b[k + 1..], v);
      assert [b[k]][1..] == [];
    }
  }

  /** No value of `s` is below `v`. */
  lemma {:induction false} NoneBelow(s: seq<nat>, v: nat)
    requires forall j :: 0 <= j < |s| ==> v <= s[j]
    ensures CountBelow(s, v) == 0
  {
    if |s| > 0 {
      NoneBelow(s[1..], v);
    }
  }

  /** Every value of `s` is at most `v`. */
  lemma {:induction false} AllAtMost(s: seq<nat>, v: nat)
    requires forall j :: 0 <= j < |s| ==> s[j] <= v
    ensures CountAtMost(s, v) == |s|
  {
    if |s| > 0 {
      AllAtMost(s[1..], v);
    }
  }

  lemma {:induction false} CountBelowAtMostLength(s: seq<nat>, v: nat)
    ensures CountBelow(s, v) <= |s|
  {
    if |s| > 0 {
      CountBelowAtMostLength(s[1..], v);
    }
  }

  /** In an ascending sequence the value at index `i` has rank `i`. */
  lemma SortedRank(s: seq<nat>, i: nat)
    requires Sorted(s) && i < |s|
    ensures HasRank(s, i, s[i])
  {
    SortedRankBelow(s, i);
    SortedRankAtMost(s, i);
  }

  lemma SortedRankBelow(s: seq<nat>, i: nat)
    requires Sorted(s) && i < |s|
    ensures CountBelow(s, s[i]) <= i
  {
    var v, front, back := s[i], s[..i], s[i..];
    assert s == front + back;
    CountsAppend(front, back, v);
    NoneBelow(back, v);
    CountBelowAtMostLength(front, v);
  }

  lemma SortedRankAtMost(s: seq<nat>, i: nat)
    requires Sorted(s) && i < |s|
    ensures i < CountAtMost(s, s[i])
  {
    var v, front, back := s[i], s[..i + 1], s[i + 1..];
    assert s == front + back;
    CountsAppend(front, back, v);
    AllAtMost(front, v);
  }

  /** No value of `s` is at most `v`. */
  lemma {:induction false} NoneAtMost(s: seq<nat>, v: nat)
    requires forall j :: 0 <= j < |s| ==> v < s[j]
    ensures CountAtMost(s, v) == 0
  {
    if |s| > 0 {
      NoneAtMost(s[1..], v);
    }
  }

  /** Every value of `s` is below `v`. */
  lemma {:induction false} AllBelow(s: seq<nat>, v: nat)
    requires forall j :: 0 <= j < |s| ==> s[j] < v
    ensures CountBelow(s, v) == |s|
  {
    if |s| > 0 {
      AllBelow(s[1..], v);
    }
  }

  lemma {:induction false} CountAtMostAtMostLength(s: seq<nat>, v: nat)
    ensures CountAtMost(s, v) <= |s|
  {
    if |s| > 0 {
      CountAtMostAtMostLength(s[1..], v);
    }
  }

  /** In an ascending sequence a value below the one at index `i` has at
      most `i` values at or below it. */
  lemma RankTooLow(s: seq<nat>, i: nat, v: nat)
    requires Sorted(s) && i < |s| && v < s[i]
    ensures CountAtMost(s, v) <= i
  {
    var front, back := s[..i], s[i..];
    assert s == front + back;
    CountsAppend(front, back, v);
    assert forall j :: 0 <= j < |back| ==> v < back[j] by {
      forall j | 0 <= j < |back|
        ensures v < back[j]
      {
        assert back[j] == s[i + j];
      }
    }
    NoneAtMost(back, v);
    CountAtMostAtMostLength(front, v);
  }

  /** In an ascending sequence a value above the one at index `i` has more
      than `i` values below it. */
  lemma RankTooHigh(s: seq<nat>, i: nat, v: nat)
    requires Sorted(s) && i < |s| && s[i] < v
    ensures i < CountBelow(s, v)
  {
    var front, back := s[..i + 1], s[i + 1..];
    assert s == front + back;
    CountsAppend(front, back, v);
    assert forall j :: 0 <= j < |front| ==> front[j] < v by {
      forall j | 0 <= j < |front|
        ensures front[j] < v
      {
        assert front[j] == s[j];
      }
    }
    AllBelow(front, v);
  }

  /** In an ascending sequence only the value at index `i` has rank `i`, so
      the rank fixes the percentile completely. */
  lemma RankUnique(s: seq<nat>, i: nat, v: nat)
    requires Sorted(s) && i < |s|
    requires HasRank(s, i, v)
    ensures v == s[i]
  {
    if v < s[i] {
      RankTooLow(s, i, v);
    } else if v > s[i] {
      RankTooHigh(s, i, v);
    }
  }

  /** The floor-index nearest-rank percentile of an ascending sequence, and 0
      for an empty one. The index needs no clamping. */
  function Percentile(sorted: seq<nat>, pct: nat): (v: nat)
    requires pct < 100
    ensures |sorted| == 0 ==> v == 0
    ensures |sorted| > 0 ==> v in sorted
    ensures |sorted| > 0 && Sorted(sorted) ==> sorted[0] <= v <= sorted[|sorted| - 1]
    ensures |sorted| > 0 && Sorted(sorted) ==> HasRank(sorted, PercentileIndex(|sorted|, pct), v)
  {
    if |sorted| > 0 then
      var i := PercentileIndex(|sorted|, pct);
      assert Sorted(sorted) ==> HasRank(sorted, i, sorted[i]) by {
        if Sorted(sorted) {
          SortedRank(sorted, i);
        }
      }
      sorted[i]
    else 0
  }

  /** The percentile of the sorted values, described on the values in their
      original order: it is one of them, and it has the nearest rank
      `floor(n * pct / 100)` among them. */
  lemma PercentileOfSorted(s: seq<nat>, pct: nat)
    requires pct < 100 && |s| > 0
    ensures Percentile(SortAscending(s), pct) in s
    ensures HasRank(s, PercentileIndex(|s|, pct), Percentile(SortAscending(s), pct))
  {
    var t := SortAscending(s);
    var v := Percentile(t, pct);
    assert v in multiset(t);
    CountsRespectMultiset(s, t, v);
  }

  /** On an ascending sequence a higher percentile is never a smaller value. */
  lemma PercentileMonotone(sorted: seq<nat>, p: nat, q: nat)
    requires Sorted(sorted)
    requires p <= q < 100
    ensures Percentile(sorted, p) <= Percentile(sorted, q)
  {
    if |sorted| > 0 {
      PercentileIndexMonotone(|sorted|, p, q);
    }
  }
}

=== FILE: thresholds.dfy ===
/** The fixed thresholds behind the status marks of the dashboard (card
    class `success` / `warning` / `error`) and of the Markdown summary
    (check, warning sign, cross). */
module Thresholds {
  import opened Optional

  datatype Status = Good | Warning | Bad

  /** How bad a status is: a larger number is a worse status. */
  function Severity(s: Status): nat {
    match s
    case Good => 0
    case Warning => 1
    case Bad => 2
  }

  /** `rate >= 95 ? good : rate >= 80 ? warning : bad`. A rate that is not a
      finite number fails both comparisons and is Bad. */
  function SuccessRateStatus(rate: Option<real>): (s: Status)
    ensures s == Good <==> rate.Some? && 95.0 <= rate.value
    ensures s == Warning <==> rate.Some? && 80.0 <= rate.value < 95.0
    ensures s == Bad <==> rate.None? || rate.value < 80.0
  {
    if rate.Some? && rate.value >= 95.0 then Good
    else if rate.Some? && rate.value >= 80.0 then Warning
    else Bad
  }

  /** A higher success rate never gets a worse status. */
  lemma SuccessRateStatusMonotone(lower: real, higher: real)
    requires lower <= higher
    ensures Severity(SuccessRateStatus(Some(higher))) <= Severity(SuccessRateStatus(Some(lower)))
  {
  }

  /** `v <= goodMax ? good : v <= warnMax ? warning : bad`, the shape of every
      latency threshold. */
  function LatencyStatus(v: real, goodMax: real, warnMax: real): (s: Status)
    requires goodMax <= warnMax
    ensures s == Good <==> v <= goodMax
    ensures s == Warning <==> goodMax < v <= warnMax
    ensures s == Bad <==> warnMax < v
  {
    if v <= goodMax then Good
    else if v <= warnMax then Warning
    else Bad
  }

  /** A larger latency never gets a better status. */
  lemma LatencyStatusMonotone(v: real, w: real, goodMax: real, warnMax: real)
    requires goodMax <= warnMax
    requires v <= w
    ensures Severity(LatencyStatus(v, goodMax, warnMax)) <= Severity(LatencyStatus(w, goodMax, warnMax))
  {
  }

  /** Average response time: good up to 1000 ms, warning up to 3000 ms. */
  function AvgStatus(avg: real): (s: Status)
    ensures s == Good <==> avg <= 1000.0
    ensures s == Warning <==> 1000.0 < avg <= 3000.0
    ensures s == Bad <==> 3000.0 < avg
  {
    LatencyStatus(avg, 1000.0, 3000.0)
  }

  /** 95th percentile: good up to 2000 ms, warning up to 5000 ms. */
  function P95Status(p95: nat): (s: Status)
    ensures s == Good <==> p95 <= 2000
    ensures s == Warning <==> 2000 < p95 <= 5000
    ensures s == Bad <==> 5000 < p95
  {
    LatencyStatus(p95 as real, 2000.0, 5000.0)
  }

  /** Maximum response time: good up to 5000 ms, warning up to 10000 ms. */
  function MaxStatus(max: nat): (s: Status)
    ensures s == Good <==> max <= 5000
    ensures s == Warning <==> 5000 < max <= 10000
    ensures s == Bad <==> 10000 < max
  {
    LatencyStatus(max as real, 5000.0, 10000.0)
  }

  /** Failed requests: good only when there are none; never a warning. */
  function FailedStatus(failed: nat): (s: Status)
    ensures s != Warning
    ensures s == Good <==> failed == 0
  {
    if failed == 0 then Good else Bad
  }

  /** More failures never get a better status. */
  lemma FailedStatusMonotone(a: nat, b: nat)
    requires a <= b
    ensures Severity(FailedStatus(a)) <= Severity(FailedStatus(b))
  {
  }
}
